=== FILE: README.md ===
# Device events ingest and read: a Dafny model

This project models the HTTP side of a device-telemetry service (`events/handler.py`):

- `POST /events` validates an event body and stores the event in a key-value table. The
  table key is partition `DEVICE#<device_id>` and sort key `TS#<ts>`, and a key may be
  written only once. The handler then enqueues a message whose `event_id` is `<pk>:<sk>`,
  for the rule evaluator downstream.
- `GET /devices/{device_id}/events` reads one device's partition, largest sort key first.
  It takes optional `from_ts`/`to_ts` bounds and a `limit`.

The table is a `map` from key to item and the queue is a `seq` of messages. Each call's
request id and clock reading are parameters. So is what the cloud services answer: a
fault oracle says, for the table write, the send and the query, whether the service
answers with an error (a `ClientError`, which the handler catches) or gives no answer at
all (a connection or timeout error, which it does not). Every handler outcome is a value:
a response or one of the exceptions the handler does not catch, together with the table
and the queue as the call leaves them.

Modules, leaves first:

- `Wrappers`: `Option` and `Result`.
- `Json`: structured bodies.
- `Service`: the two kinds of failure a cloud service request can meet.
- `Text`: Python's whitespace, `str.strip()`, and the whitespace `int()` skips.
- `Decimal`: `str()` of an `int`, and its inverse.
- `Lex`: the table's string order, and sorting by it.
- `Payload`: the body schema and its validators.
- `Keys`: table keys and event ids.
- `Table`: stored items, what the client library can serialize, and what a read returns.
- `Envelope`: `_response`.
- `Ingest`: `ingest_event`.
- `Query`: `get_device_events`.

Properties the model states about the source, beyond the per-branch outcomes:

- A body is accepted exactly when:
  - `device_id` has 1 to 128 characters and is not all whitespace;
  - `type` has 1 to 64 characters and is not all whitespace;
  - `ts > 0`;
  - `value` is present;
  - `raw` is absent, null or an object.

  The lengths count characters before stripping, so `" "` meets the length bound and
  fails only the whitespace check.
- A 400 leaves the table and the queue as they were.
- A key that is already taken is never overwritten, and nothing is enqueued for it.
- A 201 adds exactly one item and exactly one message.
- A float anywhere in `raw`, or a `ts` of more than 38 digits, makes the client library
  refuse the item. That exception is not a `ClientError`, so the call escapes before
  anything is written, whatever the key. The schema lets any object through as `raw`.
- A failed send still keeps the stored item. The table then holds an event that was never
  enqueued, and a retry of the same body gets 409 and does not enqueue it either. This
  holds whether the queue refuses the send (500) or gives no answer (the call escapes).
- The event id parses back into the device id and timestamp it was built from. So two
  events share an event id exactly when they share a table key.
- Responses to 201, 409 and failed enqueues carry an empty `X-Request-Id` header. The
  handler does not pass the request id to `_response` on those paths.
- Sort keys are unpadded decimal strings compared as strings. Largest-key-first is
  newest-first only between timestamps with the same number of digits: `TS#10` sorts
  below `TS#9`.
- `int()` does not skip the information separators U+001C–U+001F that `str.strip()`
  removes, so a `limit` such as `"\x1c5"` escapes as a non-integer.
- Reads strip the path device id, but ingestion stores the id as sent. Events whose device
  id has whitespace at either end are stored in a partition that no read ever queries.
- A read returns the integers inside `raw` as strings: the table gives numbers back as
  `Decimal`, and `json.dumps(..., default=str)` renders those as their text.

## Model

| member | source | states |
|---|---|---|
| Text.Strip | events/handler.py:49-54 | `strip()` yields an infix of the string with only whitespace removed before and after it, and whose ends are not whitespace. It is empty exactly when the string is all whitespace, which is the `not_empty` test. The same holds for the whitespace `int()` skips, which leaves out U+001C–U+001F |
| Text.StripIdempotent | events/handler.py:49-54 | a property of `str.strip()` (and of `int()`'s skipping) itself: stripping a stripped string changes nothing |
| Decimal.Encode | events/handler.py:132 | `str(ts)` is canonical decimal text: digits only, at least one, no leading zero |
| Decimal.DecodeEncode | events/handler.py:132 | the decimal text of `ts` decodes back to `ts` |
| Decimal.EncodeDecode | events/handler.py:132 | every canonical digit string is the text of the number it spells |
| Decimal.EncodeInjective | events/handler.py:132 | different timestamps give different sort-key digits |
| Decimal.EncodeOrder | events/handler.py:132 | numbers with the same digit count print in numeric order |
| Lex.LessIrreflexive | events/handler.py:236-246 | no sort key sorts before itself |
| Lex.LessTransitive | events/handler.py:236-246 | the key order is transitive |
| Lex.LessTotal | events/handler.py:236-246 | any two different keys are ordered one way or the other |
| Lex.LessCommonPrefix | events/handler.py:236-240 | a shared `TS#` prefix does not change how bounds and keys compare |
| Lex.LessExtend | events/handler.py:246 | equal-length strings extended by one character are ordered by the strings first, then by the characters |
| Lex.SortDescending | events/handler.py:246 | the keys come out strictly descending, each exactly once, and all of them |
| Payload.Validate | events/handler.py:37-62 | the body is accepted iff the required fields are present and typed, `raw` is an object or absent, and the device id, type and ts are well formed (length bounds, not blank, ts > 0). The payload carries the given values. A rejection lists at least one violation |
| Payload.SpaceIsLongEnoughButBlank | events/handler.py:42-54 | `" "` passes the length constraint and fails only the whitespace validator |
| Payload.SpaceDeviceIdRejected | events/handler.py:42-54 | a single-space `device_id` makes validation fail with a blank-field violation, whatever the other fields hold |
| Keys.PartitionKey | events/handler.py:131 | the partition key is `DEVICE#` followed by the device id, which can be read back from it |
| Keys.SortKey | events/handler.py:132 | the sort key is `TS#` followed by text that decodes back to `ts`, and it never holds a `:` |
| Keys.EventId | events/handler.py:179 | the event id is the partition key, one `:`, then the sort key |
| Keys.ParseEventIdRoundTrip | events/handler.py:179 | the event id `DEVICE#<d>:TS#<ts>` splits back, at its last `:`, into `d` and `ts`, even when `d` contains `:` |
| Keys.EventIdInjective | events/handler.py:131-179 | two events have the same event id iff they have the same device id and ts |
| Keys.TableKeyInjective | events/handler.py:131-151 | two events have the same table key iff they have the same device id and ts, so the write condition enforces the device id + ts uniqueness rule |
| Keys.SortKeyOrder | events/handler.py:132 | for timestamps with equally many digits, the sort key order is the time order |
| Keys.SortKeyNotChronological | events/handler.py:246 | `TS#10` sorts below `TS#9`, so largest-key-first is not newest-first across a change in digit count |
| Table.StoredJson | events/handler.py:79 | a stored attribute comes back from a read with its shape kept, and every integer rendered as its decimal text (the table returns `Decimal`, which `default=str` prints), so no JSON integer is left anywhere in it |
| Table.ItemJson | events/handler.py:253-259 | a read item has exactly the stored attributes: keys, device id, type, request id as stored, `value` as a float, `ts` and `ingested_at` as integers, and `raw` (only if stored) with its numbers as text |
| Envelope.Respond | events/handler.py:65-80 | a non-object body is wrapped as `{"message": body}`, and an object body keeps all its fields. `request_id` is added (replacing any earlier one) only when non-empty. `X-Request-Id` is the request id or `""` |
| Ingest.ProblemType | events/handler.py:124-128 | a violation is reported with pydantic's error type: `missing` exactly for an absent field, one of the type errors exactly for a value of the wrong type, `string_too_short`/`string_too_long` for the length bounds, `value_error` exactly for the two validators. Within the type errors, `int_parsing`/`float_parsing` exactly for unreadable text in `ts` or `value`, `int_from_float` exactly for a fractional `ts`, `finite_number` exactly for a non-finite `ts`, and `string_type` for `device_id` and `type` |
| Ingest.ParseBody | events/handler.py:83-92 | a payload comes out only for a string body that decodes to an object and validates, and that payload is well formed. A missing or non-string body is the `ValueError`; text `json.loads` cannot build is its `ValueError` or `RecursionError`; a decoded non-object is the `TypeError` from `**data` |
| Ingest.Reject | events/handler.py:113-128 | a body without a payload writes nothing. A missing body, one `json.loads` cannot build (a too-long integer literal, too deep nesting) and a non-object escape, each as its own exception; invalid JSON or schema answers 400 with the request id in the header |
| Ingest.Commit | events/handler.py:130-203 | for a validated event: an item the client library cannot serialize, a write without an answer, or a send without an answer after the write escape as exceptions. 201 iff the item serializes, the write goes through on a fresh key and the send succeeds. 409 iff the item serializes and the write goes through on a taken key. The table gains the new item exactly when the item serializes and the write goes through on a fresh key, and keeps it whatever the send does. The queue gains the new message only on 201. A refused send answers 500 with the queue's message. 201 and 409 carry an empty `X-Request-Id`, and a refused write echoes the request id |
| Ingest.Ingest | events/handler.py:95-203 | the call escapes exactly when there is no body, `json.loads` raises something other than `JSONDecodeError` on it, the body is not a JSON object, or the validated event's write-then-enqueue escapes. Otherwise the status is 201, 400, 409 or 500. 400 happens exactly when parsing or validation fails; then table and queue are unchanged and the request id is echoed. Nothing is enqueued without a 201, no existing item ever changes, and 201 and 409 carry an empty `X-Request-Id` |
| Ingest.ItemAndMessageContents | events/handler.py:131-180 | the item is keyed `DEVICE#<device_id>` / `TS#<ts>`. The message's `event_id` is `pk + ":" + sk` and parses back to the payload's device id and ts. Item and message copy the payload's fields. `raw` is stored only when it is a non-empty object, and the item serializes exactly when the payload does |
| Ingest.IngestCreated | events/handler.py:144-203 | 201 iff the body validates, its item serializes, the write goes through on a fresh key, and the send succeeds. Then the table is the old one plus that one item, one larger, and the queue the old one plus that one message |
| Ingest.IngestAddsOnlyTheEvent | events/handler.py:131-152 | the only key a call can add to the table is the validated event's own key, and it holds that event's item |
| Ingest.IngestRawFloatEscapes | events/handler.py:144-156 | a float in `raw` makes the call escape with nothing written, whatever the key and the services |
| Ingest.IngestHugeTsEscapes | events/handler.py:140-156 | a `ts` of more than 38 digits makes the call escape with nothing written |
| Ingest.IngestDuplicate | events/handler.py:147-167 | on a key already present, nothing is stored or enqueued. The call is answered exactly when the item serializes and the write gets an answer; the status is then 409, or 500 if the table refuses the write |
| Ingest.IngestStoreFailure | events/handler.py:147-170 | a failed write changes neither table nor queue. A refused write answers 500; a write without an answer escapes |
| Ingest.IngestEnqueueFailure | events/handler.py:182-192 | a failed send keeps the item stored and the queue unchanged. A refused send answers 500; a send without an answer escapes. A retry of the body then gets 409 (500 if that write is refused, an escape if it gets no answer) and still enqueues nothing |
| Ingest.IngestIdempotent | events/handler.py:106-167 | after a 201, ingesting the same body again leaves table and queue exactly as the first call left them, and is answered 409 unless that write fails |
| Ingest.IngestKeepsKeysConsistent | events/handler.py:134-152 | whatever the outcome, every item stays filed under its own `PK`/`SK` attributes |
| Query.ParseInt | events/handler.py:229 | `int()` reads exactly the strings that, once the whitespace `int()` skips is stripped (all of `str.isspace()` except U+001C–U+001F), are an optional sign and one to 4300 ASCII digits, and reads them as the signed number the digits spell. Longer digit strings are refused with a `ValueError`, like any other unreadable text |
| Query.SeparatorNotSkipped | events/handler.py:229 | `"\x1c5"` strips to `"5"`, yet `int()` refuses it |
| Query.ParseIntRoundTrip | events/handler.py:229 | `int()` reads back the decimal text of any non-negative number of at most 4300 digits |
| Query.ParseIntSigned | events/handler.py:229 | `int()` reads back that text after a `-` (as the negated number) or a `+` |
| Query.IntTextReadsBack | events/handler.py:229 | `int(str(n)) == n` for every integer of at most 4300 digits |
| Query.StoredIntegerReadsBack | events/handler.py:79 | an integer in `raw` that the table can store (under 38 digits) comes back from a read as text that `int()` turns into the integer that was ingested |
| Decimal.EncodeLength | events/handler.py:79 | a number below `10^k` prints with at most `k` digits (one for zero), so the table's numbers are far inside `int()`'s digit limit |
| Query.SelectCondition | events/handler.py:235-240 | a sort key meets the chosen condition iff it is at least `TS#<from_ts>` when `from_ts` is non-empty and at most `TS#<to_ts>` when `to_ts` is non-empty. A BETWEEN is used exactly when both are non-empty |
| Query.LastEvaluatedKeyMeaning | events/handler.py:272 | for any result with the guarantees of `RunQuery`: a null `last_evaluated_key` means every matching item of the partition came back; a non-null one names the last item returned, and every matching item left out sorts below it |
| Query.PlanRequest | events/handler.py:218-240 | a missing or blank (after stripping) path device id issues no query. Otherwise the partition is `DEVICE#` + the stripped id and `limit` defaults to 100. The condition is between when both bounds are non-empty, `>=` with only `from_ts`, `<=` with only `to_ts`, the whole partition with neither. A non-integer or non-positive `limit` escapes as an exception |
| Query.SeparatorLimitRefused | events/handler.py:215-229 | a request with a non-blank device id and `limit` = `"\x1c5"` issues no query and escapes as a non-integer `limit` |
| Query.PaddedDeviceIdUnreadable | events/handler.py:219 | a device id with whitespace at either end names a partition no read request queries |
| Query.RunQuery | events/handler.py:242-247 | at most `limit` keys come back, all in the partition and meeting the condition, in strictly descending sort-key order. A matching item is left out only when `limit` items with larger keys were returned |
| Query.EventsResponse | events/handler.py:266-275 | the 200 body holds exactly `device_id`, `count`, `events`, `last_evaluated_key` and the request id: the device id, the number of items, the items as read, and where the read stopped |
| Query.ReadPlanned | events/handler.py:242-275 | a planned query escapes when the table gives no answer, and answers 500 when the table refuses it or a BETWEEN whose lower bound is above its upper bound. Otherwise it answers 200 with the top-`limit` matching items, largest sort key first. The body names the device id, holds the items as read and their `count`, and a `last_evaluated_key` that is null only when every matching item came back, and otherwise names the last item returned, above every matching item left out |
| Query.GetDeviceEvents | events/handler.py:206-275 | the outcome is 400 with no query, an escaped exception for an unusable `limit`, or the planned query as `ReadPlanned` answers it for the stripped device id, with the same guarantees on the items, the body and its `last_evaluated_key`. `X-Request-Id` carries the request id |

## Left out

- The AWS clients, environment configuration and module-level singletons. The table is a
  `map` and the queue a `seq`, and what a write, send or query runs into is a parameter.
  The conditional put is modelled as "fail if the key is present". A write that the table
  refuses for any other reason is assumed to be refused before its condition is evaluated.
- Ingest.Commit: a write or a send that gets no answer is modelled as not applied. One whose
  answer is lost after the service applied it (a read timeout) would leave the item stored
  or the message sent; that case is not modelled.
- Ingest.Commit: `value` is a `real` taken to convert. A float too large or too small for
  the table's 38-digit number type, and a NaN or infinite `value` (which `json.loads` and
  the schema accept), would also make the client library refuse the item; float ranges
  and non-finite floats are not modelled.
- JSON text. Bodies are structured `Json` values, and the request body arrives already
  decoded, or marked malformed, undecodable or not an object. Which texts exceed
  `json.loads`'s integer-digit or nesting limits is not modelled, only that they escape.
- Pydantic's type coercion. Each field arrives missing, of an unusable type, or as a value
  of the field's type. `e.errors()` is reduced to each violation's field and error type.
- `value` is a `real` copied unchanged. Float rounding, the `Decimal(str(...))`
  conversions and the `float`/`int` re-casts on read are not modelled.
- `ingested_at` is the clock reading passed in, in whole milliseconds. The request id
  comes from the invocation context or a UUID and is passed in. Logging is not modelled.
- Query.ParseInt: accepts surrounding whitespace, a sign and one to 4300 ASCII digits.
  Python's `int()` also accepts `_` between digits and non-ASCII decimal digits; these are
  not modelled.
- Query.RunQuery: returns `limit` items whenever that many match. The table also stops a
  page after 1 MB of data read, which can return fewer; that page limit is not modelled.
- Query.LastEvaluatedKey: taken to be present exactly when `limit` items were returned.
  With the 1 MB page limit the table can also return a key after fewer items; that case
  and the key-size limits are not modelled.
- Query.GetDeviceEvents: the client library's parameter check on `limit` is assumed, not
  modelled: a `limit` below one is taken to escape as an exception before any request.
- The rule-evaluation consumer, rules and alerts. No code for them is part of this model.

=== FILE: decimal.dfy ===
/** Decimal text of natural numbers: Python's `str(n)` / f-string rendering of
    a non-negative `int`, and its inverse on canonical digit strings. */
module Decimal {
  import opened Wrappers
  import Lex

  predicate IsDigit(c: char) {
    '0' <= c <= '9'
  }

  function DigitChar(d: nat): (c: char)
    requires d < 10
    ensures IsDigit(c)
  {
    (d + '0' as int) as char
  }

  function DigitValue(c: char): (d: nat)
    requires IsDigit(c)
    ensures d < 10
  {
    c as int - '0' as int
  }

  /** Only decimal digits. */
  predicate AllDigits(s: string) {
    forall k :: 0 <= k < |s| ==> IsDigit(s[k])
  }

  /** The form Python prints: at least one digit, no leading zero unless the
      number is zero itself. */
  predicate Canonical(s: string) {
    && |s| > 0
    && AllDigits(s)
    && (|s| > 1 ==> s[0] != '0')
  }

  /** `str(n)` for `n >= 0`. */
  function Encode(n: nat): (s: string)
    ensures Canonical(s)
    ensures n > 0 ==> s[0] != '0'
  {
    if n < 10 then [DigitChar(n)]
    else
      var p := Encode(n / 10);
      p + [DigitChar(n % 10)]
  }

  /** `str(n)` for any `int`: a `-` in front of the digits of a negative
      number. (CPython refuses numbers of more than 4300 digits; the model
      applies it only to numbers the table can hold.) */
  function IntText(n: int): (s: string)
    ensures n >= 0 ==> s == Encode(n)
    ensures n < 0 ==> |s| > 1 && s[0] == '-' && s[1..] == Encode(-n)
  {
    if n < 0 then "-" + Encode(-n) else Encode(n)
  }

  function Pow10(k: nat): (r: nat)
    ensures r > 0
  {
    if k == 0 then 1 else 10 * Pow10(k - 1)
  }

  /** A number below `10^k` prints in at most `k` digits (one, for zero). */
  lemma {:induction false} EncodeLength(n: nat, k: nat)
    requires n < Pow10(k)
    ensures |Encode(n)| <= if k == 0 then 1 else k
  {
    assert Pow10(0) == 1 && Pow10(1) == 10;
    if n >= 10 {
      assert n / 10 < Pow10(k - 1);
      EncodeLength(n / 10, k - 1);
    }
  }

  /** The number a digit string spells, leading zeros allowed. */
  function Value(s: string): nat
    requires AllDigits(s)
  {
    if |s| == 0 then 0 else 10 * Value(s[..|s| - 1]) + DigitValue(s[|s| - 1])
  }

  /** Inverse of `Encode`: defined exactly on canonical digit strings. */
  function Decode(s: string): (r: Option<nat>)
    ensures r.Some? <==> Canonical(s)
  {
    if Canonical(s) then Some(Value(s)) else None
  }

  lemma {:induction false} ValueOfEncode(n: nat)
    ensures Value(Encode(n)) == n
  {
    if n >= 10 {
      var p := Encode(n / 10);
      var s := p + [DigitChar(n % 10)];
      assert s[..|s| - 1] == p;
      ValueOfEncode(n / 10);
    }
  }

  /** A digit string whose value is zero is all zeros. */
  lemma {:induction false} ZeroValueAllZeros(s: string)
    requires AllDigits(s) && |s| > 0 && Value(s) == 0
    ensures s[0] == '0'
  {
    if |s| > 1 {
      var p := s[..|s| - 1];
      assert AllDigits(p);
      ZeroValueAllZeros(p);
    }
  }

  lemma {:induction false} EncodeOfValue(s: string)
    requires Canonical(s)
    ensures Encode(Value(s)) == s
  {
    if |s| > 1 {
      var p := s[..|s| - 1];
      var c := s[|s| - 1];
      assert Canonical(p);
      if Value(p) == 0 {
        ZeroValueAllZeros(p);
      }
      var v := Value(s);
      assert v == 10 * Value(p) + DigitValue(c);
      assert v / 10 == Value(p) && v % 10 == DigitValue(c);
      EncodeOfValue(p);
      assert s == p + [c];
    }
  }

  /** Decoding undoes encoding. */
  lemma DecodeEncode(n: nat)
    ensures Decode(Encode(n)) == Some(n)
  {
    ValueOfEncode(n);
  }

  /** Encoding undoes decoding: every decodable string is what Python prints. */
  lemma EncodeDecode(s: string)
    requires Decode(s).Some?
    ensures Encode(Decode(s).value) == s
  {
    EncodeOfValue(s);
  }

  /** Distinct numbers print differently. */
  lemma EncodeInjective(a: nat, b: nat)
    ensures Encode(a) == Encode(b) ==> a == b
  {
    DecodeEncode(a);
    DecodeEncode(b);
  }

  /** Numbers of the same digit count print in numeric order. */
  lemma {:induction false} EncodeOrder(a: nat, b: nat)
    requires |Encode(a)| == |Encode(b)|
    ensures Lex.Less(Encode(a), Encode(b)) <==> a < b
  {
    if a < 10 && b < 10 {
      Lex.LessExtend([], [], DigitChar(a), DigitChar(b));
      assert Encode(a) == [] + [DigitChar(a)] && Encode(b) == [] + [DigitChar(b)];
    } else if a >= 10 && b >= 10 {
      var pa, pb := Encode(a / 10), Encode(b / 10);
      assert Encode(a) == pa + [DigitChar(a % 10)] && Encode(b) == pb + [DigitChar(b % 10)];
      EncodeOrder(a / 10, b / 10);
      EncodeInjective(a / 10, b / 10);
      Lex.LessExtend(pa, pb, DigitChar(a % 10), DigitChar(b % 10));
      assert a == 10 * (a / 10) + a % 10 && b == 10 * (b / 10) + b % 10;
    }
  }
}

=== FILE: envelope.dfy ===
/** The HTTP response every route returns. */
module Envelope {
  import opened Wrappers
  import opened Json

  datatype Response = Response(
    status: int,
    headers: map<string, string>,
    body: map<string, Json>)

  const ContentType: string := "Content-Type"
  const RequestIdHeader: string := "X-Request-Id"
  const RequestIdField: string := "request_id"
  const MessageField: string := "message"

  /** Python truthiness of an optional string: present and non-empty. */
  predicate Truthy(s: Option<string>) {
    s.Some? && s.value != ""
  }

  /** Wraps `body` into a response. An object body is used as the payload as
      is; any other body becomes `{"message": body}`. A non-empty request id is
      added to the payload (replacing one the body carried) and is echoed in
      the `X-Request-Id` header, which is empty when there is none. */
  function Respond(status: int, body: Json, requestId: Option<string>): (r: Response)
    ensures r.status == status
    ensures r.headers.Keys == {ContentType, RequestIdHeader}
    ensures r.headers[ContentType] == "application/json"
    ensures r.headers[RequestIdHeader] == requestId.GetOr("")
    ensures RequestIdField in r.body <==>
      Truthy(requestId) || (body.JObj? && RequestIdField in body.fields)
    ensures Truthy(requestId) ==> r.body[RequestIdField] == JStr(requestId.value)
    ensures body.JObj? ==>
      forall k :: k != RequestIdField ==> (k in r.body <==> k in body.fields)
    ensures body.JObj? ==>
      forall k :: k in body.fields && (k != RequestIdField || !Truthy(requestId)) ==>
        r.body[k] == body.fields[k]
    ensures !body.JObj? ==>
      && MessageField in r.body && r.body[MessageField] == body
      && forall k :: k in r.body ==> k == MessageField || k == RequestIdField
  {
    var payload := if body.JObj? then body.fields else map[MessageField := body];
    var payload := if Truthy(requestId) then payload[RequestIdField := JStr(requestId.value)] else payload;
    Response(
      status,
      map[ContentType := "application/json", RequestIdHeader := requestId.GetOr("")],
      payload)
  }
}

=== FILE: ingest.dfy ===
/** `POST /events`: parse and validate the body, insert the event under a
    key that must not exist yet, then enqueue it for rule evaluation. The
    table and the queue are values; the failures the cloud services can
    report are given as an oracle. */
module Ingest {
  import opened Wrappers
  import opened Json
  import opened Text
  import opened Payload
  import opened Keys
  import opened Table
  import opened Envelope
  import opened Service

  /** What JSON decoding made of a string body. `Undecodable` is text on which
      `json.loads` raises something other than `JSONDecodeError`: a
      `ValueError` for an integer literal of more than 4300 digits, or a
      `RecursionError` for nesting deeper than the interpreter's limit. */
  datatype Decoded =
    | Malformed(detail: string)   // not JSON at all
    | Undecodable                 // JSON that `json.loads` cannot build
    | NotObject                   // JSON, but not an object
    | Object(fields: Fields)

  /** The `body` entry of the incoming request. */
  datatype RequestBody = BodyMissing | BodyNotString | BodyText(decoded: Decoded)

  /** Why a body yields no payload. */
  datatype ParseFailure =
    | NoBody                           // `ValueError`, not caught by the handler
    | NotMapping                       // `TypeError` from `**data`, not caught
    | DecodeRaised                     // `ValueError` or `RecursionError`, not caught
    | InvalidJson(detail: string)
    | Invalid(violations: seq<Violation>)

  /** Exceptions that escape the handler instead of becoming a response:
      no string body (`ValueError`), a body `json.loads` cannot build
      (`ValueError` or `RecursionError`), a decoded body that is not an
      object (`TypeError` from `**data`), an item the client library cannot
      serialize (`TypeError` for a float, a `decimal` signal, `Inexact` or
      `Rounded`, for an integer of more than 38 digits), and a write or a send
      that gets no answer. */
  datatype Uncaught =
    | BodyRequired
    | BodyUndecodable
    | BodyNotMapping
    | ItemNotSerializable
    | StoreUnreachable
    | QueueUnreachable

  /** What the table write and the queue send run into on this call, if
      anything. A write that the table answers with an error is taken to fail
      before its condition is evaluated. */
  datatype Faults = Faults(store: Option<Fault>, enqueue: Option<Fault>)

  /** Per-call inputs from outside: the invocation's request id, the clock in
      milliseconds, and the fault oracle. */
  datatype Env = Env(requestId: string, nowMs: int, faults: Faults)

  /** The queue message handed to rule evaluation. */
  datatype Message = Message(
    deviceId: string,
    eventType: string,
    value: Reading,
    ts: int,
    requestId: string,
    eventId: string)

  type Queue = seq<Message>

  /** A response or an escaped exception, with the table and the queue as the
      call leaves them. */
  datatype Outcome =
    | Handled(response: Response, store: Store, queue: Queue)
    | Raised(error: Uncaught, store: Store, queue: Queue)

  /** `_parse_body` with the handler's exception classes made explicit. An
      accepted payload is well formed. */
  function ParseBody(body: RequestBody): (r: Result<EventPayload, ParseFailure>)
    ensures r.Ok? ==> WellFormed(r.value.deviceId, r.value.eventType, r.value.ts)
    ensures r.Ok? <==> body.BodyText? && body.decoded.Object? && Validate(body.decoded.fields).Ok?
    ensures r == Err(NoBody) <==> body.BodyMissing? || body.BodyNotString?
    ensures r == Err(NotMapping) <==> body == BodyText(NotObject)
    ensures r == Err(DecodeRaised) <==> body == BodyText(Undecodable)
  {
    match body
    case BodyMissing => Err(NoBody)
    case BodyNotString => Err(NoBody)
    case BodyText(Malformed(detail)) => Err(InvalidJson(detail))
    case BodyText(Undecodable) => Err(DecodeRaised)
    case BodyText(NotObject) => Err(NotMapping)
    case BodyText(Object(fields)) =>
      match Validate(fields)
      case Ok(p) => Ok(p)
      case Err(vs) => Err(Invalid(vs))
  }

  /** The table key of a validated event. */
  function KeyOf(p: EventPayload): ItemKey
    requires p.ts > 0
  {
    ItemKey(PartitionKey(p.deviceId), SortKey(p.ts))
  }

  function NewItem(p: EventPayload, env: Env): Item
    requires p.ts > 0
  {
    Item(
      PartitionKey(p.deviceId), SortKey(p.ts), p.deviceId, p.eventType, p.value, p.ts,
      env.nowMs, env.requestId,
      if p.raw.Some? && p.raw.value != map[] then p.raw else None)
  }

  function NewMessage(p: EventPayload, env: Env): Message
    requires p.ts > 0
  {
    Message(
      p.deviceId, p.eventType, p.value, p.ts, env.requestId,
      EventId(PartitionKey(p.deviceId), SortKey(p.ts)))
  }

  /** Pydantic's error type for a violation: `missing` for an absent field,
      a type error for a value that cannot be coerced, the string length
      errors for the length bounds, and `value_error` for the two validators
      that raise `ValueError`. A number field reports unreadable text as a
      parsing error, and `ts` reports a fractional or non-finite float and
      a string of more than 4300 characters by name; everything else is a
      `*_type` error of the field's type. */
  function ProblemType(v: Violation): (t: string)
    ensures t == "missing" <==> v.problem.Required?
    ensures v.problem.WrongType? <==> t in TypeErrors
    ensures t == "string_too_short" <==> v.problem.TooShort?
    ensures t == "string_too_long" <==> v.problem.TooLong?
    ensures t == "value_error" <==> v.problem.Blank? || v.problem.NotPositive?
    ensures t in {"int_parsing", "float_parsing"} <==>
      v.problem == WrongType(UnreadableText) && v.field in {TsField, ValueField}
    ensures t == "int_from_float" <==> v == Violation(TsField, WrongType(Fractional))
    ensures t == "finite_number" <==> v == Violation(TsField, WrongType(NotFinite))
    ensures t == "int_parsing_size" <==> v == Violation(TsField, WrongType(TooManyDigits))
    ensures v.problem.WrongType? && v.field in {DeviceIdField, TypeField} ==> t == "string_type"
  {
    match v.problem
    case Required => "missing"
    case WrongType(how) =>
      (match v.field
       case DeviceIdField => "string_type"
       case TypeField => "string_type"
       case ValueField => if how == UnreadableText then "float_parsing" else "float_type"
       case TsField =>
         (match how
          case WrongKind => "int_type"
          case UnreadableText => "int_parsing"
          case Fractional => "int_from_float"
          case NotFinite => "finite_number"
          case TooManyDigits => "int_parsing_size")
       case RawField => "dict_type")
    case TooShort(_) => "string_too_short"
    case TooLong(_) => "string_too_long"
    case Blank => "value_error"
    case NotPositive => "value_error"
  }

  /** The error types pydantic reports for a value it cannot coerce. */
  const TypeErrors: set<string> := {
    "string_type", "float_type", "float_parsing", "int_type", "int_parsing",
    "int_parsing_size", "int_from_float", "finite_number", "dict_type"}

  function FieldLabel(f: FieldName): string {
    match f
    case DeviceIdField => "device_id"
    case TypeField => "type"
    case ValueField => "value"
    case TsField => "ts"
    case RawField => "raw"
  }

  function ViolationJson(v: Violation): Json {
    JObj(map["loc" := JArr([JStr(FieldLabel(v.field))]), "type" := JStr(ProblemType(v))])
  }

  function ViolationsJson(vs: seq<Violation>): Json {
    JArr(seq(|vs|, i requires 0 <= i < |vs| => ViolationJson(vs[i])))
  }

  /** The 400 answer: the error and its detail, with the request id echoed. */
  function BadRequest(error: string, detail: Json, requestId: string): (r: Response)
    ensures r.status == 400
    ensures RequestIdHeader in r.headers && r.headers[RequestIdHeader] == requestId
    ensures "error" in r.body && r.body["error"] == JStr(error)
    ensures "detail" in r.body && r.body["detail"] == detail
  {
    Respond(400, JObj(map["error" := JStr(error), "detail" := detail]), Some(requestId))
  }

  /** The outcome of a body that yields no payload: a missing, undecodable
      or non-object body escapes, invalid JSON or schema answers 400 with the request id.
      Nothing is written. */
  function Reject(e: ParseFailure, env: Env, s: Store, q: Queue): (o: Outcome)
    ensures o.store == s && o.queue == q
    ensures o.Raised? <==> e.NoBody? || e.DecodeRaised? || e.NotMapping?
    ensures o.Raised? ==>
      && (o.error == BodyRequired <==> e.NoBody?)
      && (o.error == BodyUndecodable <==> e.DecodeRaised?)
      && (o.error == BodyNotMapping <==> e.NotMapping?)
    ensures o.Handled? ==>
      && o.response.status == 400
      && RequestIdHeader in o.response.headers
      && o.response.headers[RequestIdHeader] == env.requestId
  {
    match e
    case NoBody => Raised(BodyRequired, s, q)
    case DecodeRaised => Raised(BodyUndecodable, s, q)
    case NotMapping => Raised(BodyNotMapping, s, q)
    case InvalidJson(detail) =>
      Handled(BadRequest("Invalid JSON body", JStr(detail), env.requestId), s, q)
    case Invalid(vs) =>
      Handled(BadRequest("Validation failed", ViolationsJson(vs), env.requestId), s, q)
  }

  /** Whether the client library can serialize the event's item: `ts` and
      every integer in `raw` within 38 digits, and no float anywhere in
      `raw`. */
  predicate Serializable(p: EventPayload) {
    && p.ts < NumberLimit
    && (p.raw.Some? ==> Storable(JObj(p.raw.value)))
  }

  /** Whether the write-then-enqueue stage of a validated event escapes as
      an exception: the item cannot be serialized, the write gets no answer,
      or the item is stored and the send gets no answer. */
  predicate CommitEscapes(p: EventPayload, env: Env, s: Store)
    requires p.ts > 0
  {
    || !Serializable(p)
    || env.faults.store == Some(TransportFault)
    || (env.faults.store.None? && KeyOf(p) !in s && env.faults.enqueue == Some(TransportFault))
  }

  /** The write-then-enqueue stage for a validated event. An item the client
      library cannot serialize escapes before anything is sent. A write that
      gets no answer escapes; one the table refuses answers 500; on a taken
      key it answers 409; otherwise the item is stored. The send then either
      gets no answer (escapes, the item stays stored), is refused (500, the
      item stays stored) or succeeds (201). */
  function Commit(p: EventPayload, env: Env, s: Store, q: Queue): (o: Outcome)
    requires p.ts > 0
    ensures o.Raised? <==> CommitEscapes(p, env, s)
    ensures o.Raised? ==> o.error in {ItemNotSerializable, StoreUnreachable, QueueUnreachable}
    ensures o.Raised? && o.error == ItemNotSerializable <==> !Serializable(p)
    ensures o.Handled? ==> RequestIdHeader in o.response.headers
    ensures o.Handled? ==> o.response.status in {201, 409, 500}
    ensures o.Handled? && o.response.status == 201 <==>
      Serializable(p) && env.faults.store.None? && KeyOf(p) !in s && env.faults.enqueue.None?
    ensures o.Handled? && o.response.status == 409 <==>
      Serializable(p) && env.faults.store.None? && KeyOf(p) in s
    ensures o.store == if Serializable(p) && env.faults.store.None? && KeyOf(p) !in s
      then s[KeyOf(p) := NewItem(p, env)] else s
    ensures o.queue == if o.Handled? && o.response.status == 201 then q + [NewMessage(p, env)] else q
    ensures o.Handled? && o.response.status in {201, 409} ==> o.response.headers[RequestIdHeader] == ""
    ensures o.Handled? && env.faults.store.Some? ==> o.response.headers[RequestIdHeader] == env.requestId
    ensures o.Handled? && o.response.status == 500 && env.faults.store.None? ==>
      && env.faults.enqueue.Some? && env.faults.enqueue.value.ClientFault?
      && "error" in o.response.body
      && o.response.body["error"] == JStr(env.faults.enqueue.value.message)
  {
    var key := KeyOf(p);
    var item := NewItem(p, env);
    if !Serializable(p) then Raised(ItemNotSerializable, s, q)
    else
      match env.faults.store
      case Some(TransportFault) => Raised(StoreUnreachable, s, q)
      case Some(ClientFault(_)) =>
        Handled(Respond(500, JObj(map["error" := JStr("Failed to store event")]), Some(env.requestId)), s, q)
      case None =>
        if key in s then
          var msg := JObj(map[
            "message" := JStr("Duplicate event \U{2014} already stored"),
            "request_id" := JStr(env.requestId)]);
          Handled(Respond(409, msg, None), s, q)
        else
          var s' := s[key := item];
          match env.faults.enqueue
          case Some(TransportFault) => Raised(QueueUnreachable, s', q)
          case Some(ClientFault(detail)) =>
            var msg := JObj(map["message" := JStr("SQS Enqueue failed,"), "error" := JStr(detail)]);
            Handled(Respond(500, msg, None), s', q)
          case None =>
            var msg := JObj(map[
              "message" := JStr("Event ingested"), "device_id" := JStr(p.deviceId),
              "ts" := JInt(p.ts), "request_id" := JStr(env.requestId)]);
            Handled(Respond(201, msg, None), s', q + [NewMessage(p, env)])
  }

  /** The handler. Ends in one of: an uncaught exception (no body, a body
      `json.loads` cannot build, a body that is not a JSON object, an item that cannot be serialized, or a
      write or send without an answer), 400 (invalid JSON or schema), 500
      (store write refused), 409 (key taken), 500 (stored but the send was
      refused) or 201. The table changes only by gaining the new event's key,
      and only 201 writes to the queue. */
  function Ingest(body: RequestBody, env: Env, s: Store, q: Queue): (o: Outcome)
    ensures o.Raised? <==>
      || body.BodyMissing? || body.BodyNotString?
      || body == BodyText(Undecodable) || body == BodyText(NotObject)
      || (ParseBody(body).Ok? && CommitEscapes(ParseBody(body).value, env, s))
    ensures o.Handled? ==> o.response.status in {201, 400, 409, 500}
    ensures o.Handled? ==> (o.response.status == 400 <==> ParseBody(body).Err?)
    ensures ParseBody(body).Err? ==> o.store == s && o.queue == q
    ensures o.Handled? ==> RequestIdHeader in o.response.headers
    ensures o.Handled? && o.response.status == 400 ==>
      o.response.headers[RequestIdHeader] == env.requestId
    ensures !(o.Handled? && o.response.status == 201) ==> o.queue == q
    ensures o.store.Keys >= s.Keys && forall k :: k in s ==> o.store[k] == s[k]
    ensures o.Handled? && o.response.status in {201, 409} ==> o.response.headers[RequestIdHeader] == ""
  {
    var parsed := ParseBody(body);
    if parsed.Ok? then Commit(parsed.value, env, s, q) else Reject(parsed.error, env, s, q)
  }

  /** The stored item and the queued message of a validated event: the table
      key is `DEVICE#<device_id>` / `TS#<ts>`, the event id is `<pk>:<sk>` and
      names the same device and timestamp, and both carry the payload's
      fields. `raw` is kept only when it is a non-empty object, so the item
      can be serialized exactly when the payload can. */
  lemma ItemAndMessageContents(p: EventPayload, env: Env)
    requires p.ts > 0
    ensures NewItem(p, env).pk == DevicePrefix + p.deviceId
    ensures NewItem(p, env).sk == TsPrefix + Decimal.Encode(p.ts)
    ensures KeyOf(p) == ItemKey(NewItem(p, env).pk, NewItem(p, env).sk)
    ensures NewItem(p, env).raw.Some? <==> p.raw.Some? && p.raw.value != map[]
    ensures Serializable(p) <==> ItemStorable(NewItem(p, env))
    ensures NewMessage(p, env).eventId == NewItem(p, env).pk + ":" + NewItem(p, env).sk
    ensures ParseEventId(NewMessage(p, env).eventId) == Some((p.deviceId, p.ts))
    ensures var m := NewMessage(p, env); var it := NewItem(p, env);
      && m.deviceId == it.deviceId == p.deviceId
      && m.eventType == it.eventType == p.eventType
      && m.value == it.value == p.value
      && m.ts == it.ts == p.ts
      && m.requestId == it.requestId == env.requestId
  {
    ParseEventIdRoundTrip(p.deviceId, p.ts);
  }

  /** 201 exactly when the body validates, its item can be serialized, the
      write goes through on a fresh key, and the send succeeds; the table
      then gains that one item and the queue that one message. */
  lemma IngestCreated(body: RequestBody, env: Env, s: Store, q: Queue)
    ensures var o := Ingest(body, env, s, q);
      o.Handled? && o.response.status == 201 <==>
        && ParseBody(body).Ok?
        && Serializable(ParseBody(body).value)
        && env.faults.store.None?
        && KeyOf(ParseBody(body).value) !in s
        && env.faults.enqueue.None?
    ensures var o := Ingest(body, env, s, q);
      o.Handled? && o.response.status == 201 ==>
        var p := ParseBody(body).value;
        && o.store == s[KeyOf(p) := NewItem(p, env)]
        && |o.store| == |s| + 1
        && o.queue == q + [NewMessage(p, env)]
  {
  }

  /** The only key a call may add is the new event's, holding its item. */
  lemma IngestAddsOnlyTheEvent(body: RequestBody, env: Env, s: Store, q: Queue)
    ensures var o := Ingest(body, env, s, q);
      forall k :: k in o.store && k !in s ==>
        && ParseBody(body).Ok?
        && k == KeyOf(ParseBody(body).value)
        && o.store[k] == NewItem(ParseBody(body).value, env)
  {
  }

  /** A float anywhere at the top of `raw` makes the client library refuse
      the item: the call escapes before anything is written, whatever the key
      and the services. */
  lemma IngestRawFloatEscapes(body: RequestBody, env: Env, s: Store, q: Queue, k: string)
    requires ParseBody(body).Ok?
    requires var raw := ParseBody(body).value.raw; raw.Some? && k in raw.value && raw.value[k].JNum?
    ensures Ingest(body, env, s, q) == Raised(ItemNotSerializable, s, q)
  {
    var p := ParseBody(body).value;
    assert !Storable(p.raw.value[k]);
    assert !Serializable(p);
  }

  /** So does a `ts` of more than 38 digits. */
  lemma IngestHugeTsEscapes(body: RequestBody, env: Env, s: Store, q: Queue)
    requires ParseBody(body).Ok? && ParseBody(body).value.ts >= NumberLimit
    ensures Ingest(body, env, s, q) == Raised(ItemNotSerializable, s, q)
  {
  }

  /** A key already in the table is never overwritten and nothing is
      enqueued. The call is answered unless the item cannot be serialized or
      the write gets no answer; the answer is 409, or 500 when the table
      refuses the write request itself. */
  lemma IngestDuplicate(body: RequestBody, env: Env, s: Store, q: Queue)
    requires ParseBody(body).Ok? && KeyOf(ParseBody(body).value) in s
    ensures var o := Ingest(body, env, s, q);
      && o.store == s && o.queue == q
      && (o.Handled? <==> Serializable(ParseBody(body).value) && env.faults.store != Some(TransportFault))
      && (o.Handled? ==> o.response.status == (if env.faults.store.Some? then 500 else 409))
  {
  }

  /** A failed write changes neither table nor queue: it answers 500 when the
      table refuses it, and escapes when it gets no answer. */
  lemma IngestStoreFailure(body: RequestBody, env: Env, s: Store, q: Queue)
    requires ParseBody(body).Ok? && Serializable(ParseBody(body).value)
    requires env.faults.store.Some?
    ensures var o := Ingest(body, env, s, q);
      && o.store == s && o.queue == q
      && (o.Handled? <==> env.faults.store.value.ClientFault?)
      && (o.Handled? ==> o.response.status == 500)
      && (o.Raised? ==> o.error == StoreUnreachable)
  {
  }

  /** A failed send keeps the stored item: it answers 500 when the queue
      refuses it and escapes when it gets no answer. Either way the table
      holds an event that was never handed to rule evaluation, and a retry of
      the same body is answered 409 (500 if that write is refused, nothing if
      it gets no answer) without enqueuing it either. */
  lemma IngestEnqueueFailure(body: RequestBody, env: Env, env': Env, s: Store, q: Queue)
    requires ParseBody(body).Ok? && Serializable(ParseBody(body).value)
    requires KeyOf(ParseBody(body).value) !in s
    requires env.faults.store.None? && env.faults.enqueue.Some?
    ensures var o := Ingest(body, env, s, q); var p := ParseBody(body).value;
      && o.store == s[KeyOf(p) := NewItem(p, env)]
      && o.queue == q
      && (o.Handled? <==> env.faults.enqueue.value.ClientFault?)
      && (o.Handled? ==> o.response.status == 500)
      && (o.Raised? ==> o.error == QueueUnreachable)
      && var o' := Ingest(body, env', o.store, o.queue);
      && o'.store == o.store && o'.queue == q
      && (o'.Handled? <==> env'.faults.store != Some(TransportFault))
      && (o'.Handled? ==> o'.response.status == (if env'.faults.store.Some? then 500 else 409))
  {
  }

  /** Ingesting the same body again leaves the table and the queue as the
      first successful call left them. */
  lemma IngestIdempotent(body: RequestBody, env: Env, env': Env, s: Store, q: Queue)
    requires Ingest(body, env, s, q).Handled? && Ingest(body, env, s, q).response.status == 201
    ensures var o := Ingest(body, env, s, q); var o' := Ingest(body, env', o.store, o.queue);
      && o'.store == o.store && o'.queue == o.queue
      && (o'.Handled? <==> env'.faults.store != Some(TransportFault))
      && (o'.Handled? ==> o'.response.status == (if env'.faults.store.Some? then 500 else 409))
  {
  }

  /** Every item stays filed under its own key attributes. */
  lemma IngestKeepsKeysConsistent(body: RequestBody, env: Env, s: Store, q: Queue)
    requires KeysConsistent(s)
    ensures KeysConsistent(Ingest(body, env, s, q).store)
  {
    var o := Ingest(body, env, s, q);
    forall k | k in o.store
      ensures o.store[k].pk == k.pk && o.store[k].sk == k.sk
    {
      if k !in s {
        IngestAddsOnlyTheEvent(body, env, s, q);
        ItemAndMessageContents(ParseBody(body).value, env);
      }
    }
  }
}

=== FILE: json.dfy ===
/** Structured JSON values. Request and response bodies are kept in this form;
    the textual encoding (`json.dumps` / `json.loads`) is not modelled. */
module Json {

  datatype Json =
    | JNull
    | JBool(b: bool)
    | JInt(i: int)
    | JNum(r: real)
    | JStr(s: string)
    | JArr(items: seq<Json>)
    | JObj(fields: map<string, Json>)
}

=== FILE: keys.dfy ===
/** Keys of the events table and the event identifier carried by queue
    messages: partition key `DEVICE#<device_id>`, sort key `TS#<ts>`, and
    `<pk>:<sk>`. */
module Keys {
  import opened Wrappers
  import Decimal
  import Lex

  const DevicePrefix: string := "DEVICE#"
  const TsPrefix: string := "TS#"
  const Separator: char := ':'

  /** The partition of a device: the device id after `DEVICE#`. */
  function PartitionKey(deviceId: string): (pk: string)
    ensures |pk| == |DevicePrefix| + |deviceId|
    ensures pk[..|DevicePrefix|] == DevicePrefix && pk[|DevicePrefix|..] == deviceId
  {
    DevicePrefix + deviceId
  }

  /** The sort key of an event; `ts` is positive once validated, and is
      rendered as Python prints an `int`, without padding. What follows `TS#`
      decodes back to `ts`, and the key holds no separator. */
  function SortKey(ts: nat): (sk: string)
    ensures |sk| > |TsPrefix| && sk[..|TsPrefix|] == TsPrefix
    ensures Decimal.Decode(sk[|TsPrefix|..]) == Some(ts)
    ensures Separator !in sk
  {
    var digits := Decimal.Encode(ts);
    var sk := TsPrefix + digits;
    assert sk[|TsPrefix|..] == digits;
    Decimal.DecodeEncode(ts);
    assert forall k :: |TsPrefix| <= k < |sk| ==> sk[k] == digits[k - |TsPrefix|];
    sk
  }

  /** `<pk>:<sk>`: the two keys on either side of one separator. */
  function EventId(pk: string, sk: string): (e: string)
    ensures |e| == |pk| + 1 + |sk|
    ensures e[..|pk|] == pk && e[|pk|] == Separator && e[|pk| + 1..] == sk
  {
    pk + [Separator] + sk
  }

  /** Index of the last separator in `s`, if any. */
  function LastSeparator(s: string): (r: Option<nat>)
    ensures r.Some? ==> r.value < |s| && s[r.value] == Separator
    ensures r.Some? ==> forall k :: r.value < k < |s| ==> s[k] != Separator
    ensures r.None? ==> Separator !in s
  {
    if |s| == 0 then None
    else if s[|s| - 1] == Separator then Some(|s| - 1)
    else LastSeparator(s[..|s| - 1])
  }

  function DropPrefix(prefix: string, s: string): Option<string> {
    if |prefix| <= |s| && s[..|prefix|] == prefix then Some(s[|prefix|..]) else None
  }

  /** Recovers the device id and timestamp from an event id. The device id
      may itself contain the separator; the sort key never does, so the
      split is at the last one. */
  function ParseEventId(e: string): Option<(string, nat)> {
    match LastSeparator(e)
    case None => None
    case Some(i) =>
      match DropPrefix(DevicePrefix, e[..i])
      case None => None
      case Some(deviceId) =>
        match DropPrefix(TsPrefix, e[i + 1..])
        case None => None
        case Some(digits) =>
          match Decimal.Decode(digits)
          case None => None
          case Some(ts) => Some((deviceId, ts))
  }

  /** The event id names the device and timestamp it was built from. */
  lemma ParseEventIdRoundTrip(deviceId: string, ts: nat)
    ensures ParseEventId(EventId(PartitionKey(deviceId), SortKey(ts))) == Some((deviceId, ts))
  {
    var pk := PartitionKey(deviceId);
    var sk := SortKey(ts);
    var e := EventId(pk, sk);
    assert forall k :: |pk| < k < |e| ==> e[k] == sk[k - |pk| - 1];
    assert LastSeparator(e) == Some(|pk|);
  }

  /** Distinct (device id, timestamp) pairs have distinct event ids, so the
      event id is exactly as unique as the stored key. */
  lemma EventIdInjective(d1: string, t1: nat, d2: string, t2: nat)
    ensures EventId(PartitionKey(d1), SortKey(t1)) == EventId(PartitionKey(d2), SortKey(t2))
      <==> d1 == d2 && t1 == t2
  {
    ParseEventIdRoundTrip(d1, t1);
    ParseEventIdRoundTrip(d2, t2);
  }

  /** Distinct (device id, timestamp) pairs have distinct table keys. */
  lemma TableKeyInjective(d1: string, t1: nat, d2: string, t2: nat)
    ensures (PartitionKey(d1), SortKey(t1)) == (PartitionKey(d2), SortKey(t2))
      <==> d1 == d2 && t1 == t2
  {
    if SortKey(t1) == SortKey(t2) {
      assert SortKey(t1)[|TsPrefix|..] == SortKey(t2)[|TsPrefix|..];
    }
  }

  /** Sort keys of timestamps with the same number of digits sort in time
      order, so for such events newest-first is largest-key-first. */
  lemma SortKeyOrder(a: nat, b: nat)
    requires |Decimal.Encode(a)| == |Decimal.Encode(b)|
    ensures Lex.Less(SortKey(a), SortKey(b)) <==> a < b
  {
    Lex.LessCommonPrefix(TsPrefix, Decimal.Encode(a), Decimal.Encode(b));
    Decimal.EncodeOrder(a, b);
  }

  /** Across a change in digit count the sort keys are not in time order:
      the key of timestamp 10 sorts below that of timestamp 9. */
  lemma SortKeyNotChronological()
    ensures Lex.Less(SortKey(10), SortKey(9))
  {
    assert Decimal.Encode(10) == "10";
    assert Decimal.Encode(9) == "9";
    Lex.LessCommonPrefix(TsPrefix, "10", "9");
  }
}

=== FILE: lex.dfy ===
/** Ordering of string attribute values as the key-value store compares them:
    lexicographically, character by character. The store compares UTF-8 bytes,
    which orders characters the same way as their code points. */
module Lex {

  /** `a` sorts strictly before `b`. */
  predicate Less(a: string, b: string)
    decreases |a|
  {
    if |a| == 0 then |b| > 0
    else if |b| == 0 then false
    else if a[0] == b[0] then Less(a[1..], b[1..])
    else a[0] < b[0]
  }

  /** `a` sorts before `b` or equals it. */
  predicate LessEq(a: string, b: string) {
    a == b || Less(a, b)
  }

  lemma {:induction false} LessIrreflexive(a: string)
    ensures !Less(a, a)
  {
    if |a| > 0 {
      LessIrreflexive(a[1..]);
    }
  }

  lemma {:induction false} LessTransitive(a: string, b: string, c: string)
    requires Less(a, b) && Less(b, c)
    ensures Less(a, c)
    decreases |a|
  {
    if |a| > 0 && |b| > 0 && |c| > 0 && a[0] == b[0] && b[0] == c[0] {
      LessTransitive(a[1..], b[1..], c[1..]);
    }
  }

  /** Any two different strings are ordered one way or the other. */
  lemma {:induction false} LessTotal(a: string, b: string)
    ensures a == b || Less(a, b) || Less(b, a)
    decreases |a|
  {
    if |a| > 0 && |b| > 0 && a[0] == b[0] {
      LessTotal(a[1..], b[1..]);
      if a[1..] == b[1..] {
        assert a == [a[0]] + a[1..] && b == [b[0]] + b[1..];
      }
    }
  }

  /** A common prefix does not change the order. */
  lemma {:induction false} LessCommonPrefix(p: string, x: string, y: string)
    ensures Less(p + x, p + y) <==> Less(x, y)
  {
    if |p| > 0 {
      assert (p + x)[0] == p[0] == (p + y)[0];
      assert (p + x)[1..] == p[1..] + x;
      assert (p + y)[1..] == p[1..] + y;
      LessCommonPrefix(p[1..], x, y);
    } else {
      assert p + x == x && p + y == y;
    }
  }

  /** Equal-length strings extended by one character each are ordered by
      the strings first and by the characters on a tie. */
  lemma {:induction false} LessExtend(a: string, b: string, c: char, d: char)
    requires |a| == |b|
    ensures Less(a + [c], b + [d]) <==> Less(a, b) || (a == b && c < d)
    decreases |a|
  {
    if |a| > 0 {
      assert (a + [c])[1..] == a[1..] + [c];
      assert (b + [d])[1..] == b[1..] + [d];
      if a[0] == b[0] {
        LessExtend(a[1..], b[1..], c, d);
        assert a == b <==> a[1..] == b[1..] by {
          if a[1..] == b[1..] {
            assert a == [a[0]] + a[1..] && b == [b[0]] + b[1..];
          }
        }
      }
    }
  }

  /** Strictly decreasing: largest key first, no key twice. */
  predicate Descending(r: seq<string>) {
    forall i, j :: 0 <= i < j < |r| ==> Less(r[j], r[i])
  }

  /** Places `x` in a descending sequence that does not hold it yet. */
  function Insert(r: seq<string>, x: string): (r': seq<string>)
    requires Descending(r) && x !in r
    ensures Descending(r')
    ensures |r'| == |r| + 1
    ensures forall k :: k in r' <==> k in r || k == x
  {
    if |r| == 0 then [x]
    else if Less(r[0], x) then
      assert forall j :: 0 <= j < |r| ==> Less(r[j], x) by {
        forall j | 0 <= j < |r|
          ensures Less(r[j], x)
        {
          if j > 0 {
            LessTransitive(r[j], r[0], x);
          }
        }
      }
      [x] + r
    else
      LessTotal(r[0], x);
      var rest := Insert(r[1..], x);
      assert forall k :: k in rest ==> Less(k, r[0]);
      [r[0]] + rest
  }

  /** All of `keys`, largest first: the order of a query with
      `ScanIndexForward=False`. */
  method SortDescending(keys: set<string>) returns (r: seq<string>)
    ensures Descending(r)
    ensures |r| == |keys|
    ensures forall k :: k in r <==> k in keys
  {
    r := [];
    var rest := keys;
    while rest != {}
      invariant rest <= keys
      invariant Descending(r)
      invariant |r| + |rest| == |keys|
      invariant forall k :: k in r <==> k in keys && k !in rest
      decreases rest
    {
      var x :| x in rest;
      r := Insert(r, x);
      rest := rest - {x};
    }
  }
}

=== FILE: payload.dfy ===
/** The request body schema of `POST /events` and its validation. */
module Payload {
  import opened Wrappers
  import opened Json
  import opened Text

  /** Numeric telemetry reading. It is copied between body, item and message
      unchanged; float rounding and `Decimal` conversion are not modelled. */
  type Reading = real

  /** Why a decoded value cannot be coerced to its field's type. Only a
      number field can meet the last four: a string that does not read as a
      number, and, for an integer field, a float with a fractional part, an
      infinite or NaN float, or a string of more than 4300 characters. */
  datatype Mismatch = WrongKind | UnreadableText | Fractional | NotFinite | TooManyDigits

  /** One schema field as it arrives after JSON decoding and type coercion:
      absent, not coercible to the field's type, or a value of that type. */
  datatype Input<+T> = Missing | Mistyped(how: Mismatch) | Given(v: T)

  /** The decoded request object, one entry per schema field. Keys that are not
      schema fields are ignored by the schema and are not represented. */
  datatype Fields = Fields(
    deviceId: Input<string>,
    eventType: Input<string>,
    value: Input<Reading>,
    ts: Input<int>,
    raw: Input<Option<map<string, Json>>>)

  /** A validated event. */
  datatype EventPayload = EventPayload(
    deviceId: string,
    eventType: string,
    value: Reading,
    ts: int,
    raw: Option<map<string, Json>>)

  datatype FieldName = DeviceIdField | TypeField | ValueField | TsField | RawField

  datatype Problem =
    | Required        // field absent
    | WrongType(how: Mismatch)   // value the field's type does not accept
    | TooShort(min: nat)
    | TooLong(max: nat)
    | Blank           // `not_empty`: only whitespace
    | NotPositive     // `ts_must_be_positive`

  datatype Violation = Violation(field: FieldName, problem: Problem)

  const DeviceIdMaxLength: nat := 128
  const TypeMaxLength: nat := 64

  /** The documented acceptance condition on the three constrained fields.
      The length bounds count characters before any stripping. */
  predicate WellFormed(deviceId: string, eventType: string, ts: int) {
    && 1 <= |deviceId| <= DeviceIdMaxLength
    && 1 <= |eventType| <= TypeMaxLength
    && !AllSkipped(StrStrip, deviceId)
    && !AllSkipped(StrStrip, eventType)
    && ts > 0
  }

  /** A constrained string field: the length constraints run first and the
      whitespace validator only on a value that met them. */
  function CheckText(field: FieldName, input: Input<string>, maxLength: nat): seq<Violation> {
    match input
    case Missing => [Violation(field, Required)]
    case Mistyped(how) => [Violation(field, WrongType(how))]
    case Given(v) =>
      if |v| < 1 then [Violation(field, TooShort(1))]
      else if |v| > maxLength then [Violation(field, TooLong(maxLength))]
      else if Strip(StrStrip, v) == [] then [Violation(field, Blank)]
      else []
  }

  function CheckValue(input: Input<Reading>): seq<Violation> {
    match input
    case Missing => [Violation(ValueField, Required)]
    case Mistyped(how) => [Violation(ValueField, WrongType(how))]
    case Given(_) => []
  }

  function CheckTs(input: Input<int>): seq<Violation> {
    match input
    case Missing => [Violation(TsField, Required)]
    case Mistyped(how) => [Violation(TsField, WrongType(how))]
    case Given(v) => if v <= 0 then [Violation(TsField, NotPositive)] else []
  }

  /** `raw` is optional and may be null, but must be an object when present. */
  function CheckRaw(input: Input<Option<map<string, Json>>>): seq<Violation> {
    if input.Mistyped? then [Violation(RawField, WrongType(input.how))] else []
  }

  /** Every violation of the schema, in field declaration order. */
  function Violations(f: Fields): seq<Violation> {
    CheckText(DeviceIdField, f.deviceId, DeviceIdMaxLength)
    + CheckText(TypeField, f.eventType, TypeMaxLength)
    + CheckValue(f.value)
    + CheckTs(f.ts)
    + CheckRaw(f.raw)
  }

  /** Builds the payload, or reports every violation. Accepts exactly when all
      required fields are present and well typed, `raw` is an object or absent,
      and the constrained fields are well formed; the accepted payload carries
      the given values, with an absent `raw` read as none. */
  function Validate(f: Fields): (r: Result<EventPayload, seq<Violation>>)
    ensures r.Ok? <==>
      && f.deviceId.Given? && f.eventType.Given? && f.value.Given? && f.ts.Given?
      && !f.raw.Mistyped?
      && WellFormed(f.deviceId.v, f.eventType.v, f.ts.v)
    ensures r.Ok? ==>
      && r.value.deviceId == f.deviceId.v
      && r.value.eventType == f.eventType.v
      && r.value.value == f.value.v
      && r.value.ts == f.ts.v
      && r.value.raw == (if f.raw.Given? then f.raw.v else None)
    ensures r.Err? ==> |r.error| > 0
  {
    var vs := Violations(f);
    if vs != [] then Err(vs)
    else
      Ok(EventPayload(
        f.deviceId.v, f.eventType.v, f.value.v, f.ts.v,
        if f.raw.Given? then f.raw.v else None))
  }

  /** A single space meets the length bound but not the whitespace check. */
  lemma SpaceIsLongEnoughButBlank()
    ensures CheckText(DeviceIdField, Given(" "), DeviceIdMaxLength) == [Violation(DeviceIdField, Blank)]
  {
    assert AllSkipped(StrStrip, " ");
  }

  /** So any body whose `device_id` is a single space is rejected, whatever
      its other fields hold. */
  lemma SpaceDeviceIdRejected(f: Fields)
    requires f.deviceId == Given(" ")
    ensures Validate(f).Err?
    ensures Violation(DeviceIdField, Blank) in Validate(f).error
  {
    SpaceIsLongEnoughButBlank();
    assert Validate(f).error == Violations(f);
    assert Violations(f)[0] == Violation(DeviceIdField, Blank);
  }
}

=== FILE: query.dfy ===
/** `GET /devices/{device_id}/events`: check the path, choose a sort-key
    condition from the optional bounds, and read at most `limit` items of the
    device's partition, largest sort key first. */
module Query {
  import opened Wrappers
  import opened Json
  import opened Text
  import Decimal
  import opened Lex
  import opened Keys
  import opened Table
  import opened Envelope
  import opened Service

  /** The parts of the request the handler reads. API Gateway sends `null`
      for a request without path or query parameters. */
  datatype ReadRequest = ReadRequest(
    pathParameters: Option<map<string, string>>,
    queryStringParameters: Option<map<string, string>>)

  /** The sort-key part of the key condition. */
  datatype SkCondition =
    | WholePartition
    | Between(lo: string, hi: string)
    | AtLeast(lo: string)
    | AtMost(hi: string)

  /** The query sent to the table. */
  datatype QueryPlan = QueryPlan(pk: string, condition: SkCondition, limit: int)

  /** The invocation's request id, and what the query request runs into, if
      anything. */
  datatype ReadEnv = ReadEnv(requestId: string, queryFault: Option<Fault>)

  /** Exceptions that escape the handler: `int()` of a non-numeric `limit`
      (`ValueError`), the client library's own refusal of a `limit` below one
      before anything is sent, and a query that gets no answer. */
  datatype ReadUncaught = LimitNotInteger | LimitBelowOne | QueryUnreachable

  datatype ReadOutcome =
    | Read(response: Response, issued: Option<QueryPlan>, returned: seq<ItemKey>)
    | ReadRaised(error: ReadUncaught)

  const DefaultLimit: int := 100

  /** `(params or {}).get(name)`. */
  function Param(params: Option<map<string, string>>, name: string): Option<string> {
    if params.Some? && name in params.value then Some(params.value[name]) else None
  }

  /** Whether an item's sort key lies within the condition; the bounds of
      BETWEEN are inclusive. */
  predicate Matches(c: SkCondition, sk: string) {
    match c
    case WholePartition => true
    case Between(lo, hi) => LessEq(lo, sk) && LessEq(sk, hi)
    case AtLeast(lo) => LessEq(lo, sk)
    case AtMost(hi) => LessEq(sk, hi)
  }

  /** Sort keys of the items of partition `pk` that meet `c`. */
  function Matching(s: Store, pk: string, c: SkCondition): set<string> {
    set k | k in s.Keys && k.pk == pk && Matches(c, k.sk) :: k.sk
  }

  /** The most digits `int()` converts from text: CPython's default for
      `sys.set_int_max_str_digits`. Longer digit strings raise `ValueError`. */
  const MaxIntDigits: nat := 4300

  /** An optional `+` or `-` followed by one to `MaxIntDigits` ASCII digits;
      leading zeros are allowed and count. */
  predicate IntegerText(t: string) {
    && |t| > 0
    && if t[0] == '-' || t[0] == '+' then 1 < |t| <= MaxIntDigits + 1 && Decimal.AllDigits(t[1..])
       else |t| <= MaxIntDigits && Decimal.AllDigits(t)
  }

  /** The number an integer text spells. */
  function IntegerValue(t: string): int
    requires IntegerText(t)
  {
    if t[0] == '-' then -(Decimal.Value(t[1..]) as int)
    else if t[0] == '+' then Decimal.Value(t[1..])
    else Decimal.Value(t)
  }

  /** Python's `int()` on a string: it reads exactly the strings that are an
      integer text once the whitespace `int()` skips is stripped from both
      ends, as the number that text spells, and raises `ValueError` on any
      other. */
  function ParseInt(s: string): (r: Option<int>)
    ensures r.Some? <==> IntegerText(Strip(IntParse, s))
    ensures r.Some? ==> r.value == IntegerValue(Strip(IntParse, s))
  {
    ParseSigned(Strip(IntParse, s))
  }

  /** An optional sign followed by one to `MaxIntDigits` ASCII digits. */
  function ParseSigned(t: string): (r: Option<int>)
    ensures r.Some? ==> |t| > 0
  {
    var neg := |t| > 0 && t[0] == '-';
    var digits := if |t| > 0 && (t[0] == '-' || t[0] == '+') then t[1..] else t;
    if 0 < |digits| <= MaxIntDigits && Decimal.AllDigits(digits) then
      var n: int := Decimal.Value(digits);
      Some(if neg then -n else n)
    else None
  }

  /** A string without whitespace at its ends is left as it is. */
  lemma StripUnpadded(w: Stripper, t: string)
    requires |t| > 0 && !Skips(w, t[0]) && !Skips(w, t[|t| - 1])
    ensures Strip(w, t) == t
  {
    assert TrimStart(w, t) == t;
    assert TrimEnd(w, t) == t;
  }

  /** `int()` does not skip an information separator that `str.strip()`
      removes: `"\x1c5"` strips to `"5"` but is not an integer to `int()`. */
  lemma SeparatorNotSkipped()
    ensures Strip(StrStrip, "\U{001C}5") == "5"
    ensures ParseInt("\U{001C}5") == None
  {
    var s := "\U{001C}5";
    assert s[1..] == "5";
    StripUnpadded(StrStrip, "5");
    assert TrimStart(StrStrip, s) == TrimStart(StrStrip, "5");
    StripUnpadded(IntParse, s);
    assert !Decimal.IsDigit(s[0]) && s[0] != '-' && s[0] != '+';
    assert !IntegerText(s);
  }

  /** `int()` reads back what `str()` prints, up to the digit limit. */
  lemma ParseIntRoundTrip(n: nat)
    requires |Decimal.Encode(n)| <= MaxIntDigits
    ensures ParseInt(Decimal.Encode(n)) == Some(n as int)
  {
    var d := Decimal.Encode(n);
    StripUnpadded(IntParse, d);
    UnsignedDigits(d);
    Decimal.ValueOfEncode(n);
  }

  lemma UnsignedDigits(d: string)
    requires 0 < |d| <= MaxIntDigits && Decimal.AllDigits(d)
    ensures ParseSigned(d) == Some(Decimal.Value(d) as int)
  {
    assert Decimal.IsDigit(d[0]);
  }

  /** ... and with an explicit sign in front. */
  lemma ParseIntSigned(sign: char, n: nat)
    requires sign == '-' || sign == '+'
    requires |Decimal.Encode(n)| <= MaxIntDigits
    ensures ParseInt([sign] + Decimal.Encode(n)) == Some(if sign == '-' then -(n as int) else n)
  {
    Decimal.ValueOfEncode(n);
    SignedReadsBack(sign, Decimal.Encode(n), n);
  }

  /** A read renders an integer inside `raw` as its text, and `int()` of that
      text is the integer that was ingested. */
  lemma StoredIntegerReadsBack(n: int)
    requires Storable(JInt(n))
    ensures StoredJson(JInt(n)).JStr?
    ensures ParseInt(StoredJson(JInt(n)).s) == Some(n)
  {
    Decimal.EncodeLength(if n < 0 then -n else n, 38);
    IntTextReadsBack(n);
  }

  /** `int(str(n)) == n` for every integer of at most `MaxIntDigits` digits;
      both conversions raise `ValueError` past that. */
  lemma IntTextReadsBack(n: int)
    requires |Decimal.Encode(if n < 0 then -n else n)| <= MaxIntDigits
    ensures ParseInt(Decimal.IntText(n)) == Some(n)
  {
    if n < 0 {
      var m: nat := -n;
      assert Decimal.IntText(n) == ['-'] + Decimal.Encode(m);
      ParseIntSigned('-', m);
    } else {
      ParseIntRoundTrip(n);
    }
  }

  lemma SignedReadsBack(sign: char, d: string, n: nat)
    requires sign == '-' || sign == '+'
    requires 0 < |d| <= MaxIntDigits && Decimal.AllDigits(d) && Decimal.Value(d) == n
    ensures ParseInt([sign] + d) == Some(if sign == '-' then -(n as int) else n)
  {
    var t := [sign] + d;
    SignedUnpadded(sign, d);
    SignedDigits(sign, d, n);
    assert ParseInt(t) == ParseSigned(t);
  }

  lemma SignedUnpadded(sign: char, d: string)
    requires sign == '-' || sign == '+'
    requires |d| > 0 && Decimal.AllDigits(d)
    ensures Strip(IntParse, [sign] + d) == [sign] + d
  {
    var t := [sign] + d;
    assert t[|t| - 1] == d[|d| - 1];
    assert Decimal.IsDigit(d[|d| - 1]);
    StripUnpadded(IntParse, t);
  }

  lemma SignedDigits(sign: char, d: string, n: nat)
    requires sign == '-' || sign == '+'
    requires 0 < |d| <= MaxIntDigits && Decimal.AllDigits(d) && Decimal.Value(d) == n
    ensures ParseSigned([sign] + d) == Some(if sign == '-' then -(n as int) else n)
  {
    assert ([sign] + d)[1..] == d;
  }

  /** The key condition chosen from the optional bounds; a bound that is
      absent or empty does not count. The bounds are used verbatim after the
      `TS#` prefix. */
  function SelectCondition(fromTs: Option<string>, toTs: Option<string>): (c: SkCondition)
    ensures forall sk :: Matches(c, sk) <==>
      && (Truthy(fromTs) ==> LessEq(TsPrefix + fromTs.value, sk))
      && (Truthy(toTs) ==> LessEq(sk, TsPrefix + toTs.value))
    ensures c.Between? <==> Truthy(fromTs) && Truthy(toTs)
  {
    if Truthy(fromTs) && Truthy(toTs) then Between(TsPrefix + fromTs.value, TsPrefix + toTs.value)
    else if Truthy(fromTs) then AtLeast(TsPrefix + fromTs.value)
    else if Truthy(toTs) then AtMost(TsPrefix + toTs.value)
    else WholePartition
  }

  /** Whether the table refuses the condition itself: BETWEEN needs its lower
      bound not above its upper bound. */
  predicate RejectedCondition(c: SkCondition) {
    c.Between? && Less(c.hi, c.lo)
  }

  /** Runs a query with `ScanIndexForward=False`: the keys of the first
      `limit` matching items of the partition, largest sort key first. A
      matching item is left out only when `limit` items with larger sort keys
      were returned. */
  method RunQuery(s: Store, plan: QueryPlan) returns (r: seq<ItemKey>)
    requires plan.limit >= 1
    ensures |r| <= plan.limit
    ensures forall i :: 0 <= i < |r| ==> r[i] in s && r[i].pk == plan.pk && Matches(plan.condition, r[i].sk)
    ensures forall i, j :: 0 <= i < j < |r| ==> Less(r[j].sk, r[i].sk)
    ensures forall k :: k in s && k.pk == plan.pk && Matches(plan.condition, k.sk) && k !in r ==>
      |r| == plan.limit && forall i :: 0 <= i < |r| ==> Less(k.sk, r[i].sk)
  {
    var keys := Matching(s, plan.pk, plan.condition);
    var sorted := SortDescending(keys);
    var n := if |sorted| < plan.limit then |sorted| else plan.limit;
    r := seq(n, i requires 0 <= i < n => ItemKey(plan.pk, sorted[i]));
    forall i | 0 <= i < |r|
      ensures r[i] in s && Matches(plan.condition, r[i].sk)
    {
      assert sorted[i] in keys;
      var k :| k in s.Keys && k.pk == plan.pk && Matches(plan.condition, k.sk) && k.sk == sorted[i];
      assert k == r[i];
    }
    assert forall j :: 0 <= j < n ==> ItemKey(plan.pk, sorted[j]) == r[j];
    forall k | k in s && k.pk == plan.pk && Matches(plan.condition, k.sk) && k !in r
      ensures |r| == plan.limit && forall i :: 0 <= i < |r| ==> Less(k.sk, r[i].sk)
    {
      assert k.sk in keys;
      var j :| 0 <= j < |sorted| && sorted[j] == k.sk;
      assert k == ItemKey(plan.pk, sorted[j]);
    }
  }

  /** The `last_evaluated_key` of a result: present when the query stopped
      because it reached `limit`, and then the key of the last item read, so
      that a follow-up read can continue below it. */
  function LastEvaluatedKey(r: seq<ItemKey>, limit: int): (j: Json)
    ensures j != JNull <==> |r| > 0 && |r| == limit
    ensures j != JNull ==>
      j == JObj(map["PK" := JStr(r[limit - 1].pk), "SK" := JStr(r[limit - 1].sk)])
  {
    if |r| > 0 && |r| == limit then
      JObj(map["PK" := JStr(r[|r| - 1].pk), "SK" := JStr(r[|r| - 1].sk)])
    else JNull
  }

  /** What `last_evaluated_key` tells a client about a query result: null
      means every matching item of the partition came back; otherwise it
      names the last item returned, and every matching item left out sorts
      below that item. */
  lemma LastEvaluatedKeyMeaning(s: Store, plan: QueryPlan, r: seq<ItemKey>)
    requires plan.limit >= 1
    requires |r| <= plan.limit
    requires forall i, j :: 0 <= i < j < |r| ==> Less(r[j].sk, r[i].sk)
    requires forall k :: k in s && k.pk == plan.pk && Matches(plan.condition, k.sk) && k !in r ==>
      |r| == plan.limit && forall i :: 0 <= i < |r| ==> Less(k.sk, r[i].sk)
    ensures LastEvaluatedKey(r, plan.limit) == JNull ==>
      forall k :: k in s && k.pk == plan.pk && Matches(plan.condition, k.sk) ==> k in r
    ensures LastEvaluatedKey(r, plan.limit) != JNull ==>
      && |r| > 0
      && LastEvaluatedKey(r, plan.limit) == JObj(map["PK" := JStr(r[|r| - 1].pk), "SK" := JStr(r[|r| - 1].sk)])
      && forall k :: k in s && k.pk == plan.pk && Matches(plan.condition, k.sk) && k !in r ==>
           Less(k.sk, r[|r| - 1].sk)
  {
  }

  function EventsJson(s: Store, r: seq<ItemKey>): Json
    requires forall i :: 0 <= i < |r| ==> r[i] in s
  {
    JArr(seq(|r|, i requires 0 <= i < |r| => ItemJson(s[r[i]])))
  }

  /** What the handler makes of the request before reading the table. */
  datatype Planned =
    | NoDevice                              // answered 400
    | Refused(error: ReadUncaught)          // exception escapes
    | Issue(deviceId: string, plan: QueryPlan)

  /** Request checks and query construction. A blank or missing path device
      id issues no query. Otherwise the query reads partition
      `DEVICE#<device id>`, with the device id stripped, under the condition
      chosen from `from_ts`/`to_ts`, with `limit` defaulting to 100; a `limit`
      that is not an integer, or is below one, escapes as an exception. */
  function PlanRequest(req: ReadRequest): (r: Planned)
    ensures var deviceId := Strip(StrStrip, Param(req.pathParameters, "device_id").GetOr(""));
      r.NoDevice? <==> deviceId == []
    ensures r.Refused? ==>
      && Param(req.queryStringParameters, "limit").Some?
      && var n := ParseInt(Param(req.queryStringParameters, "limit").value);
      && (n.None? <==> r.error == LimitNotInteger)
      && (n.Some? ==> n.value < 1)
    ensures r.Issue? ==>
      var fromTs := Param(req.queryStringParameters, "from_ts");
      var toTs := Param(req.queryStringParameters, "to_ts");
      var limit := Param(req.queryStringParameters, "limit");
      && r.deviceId == Strip(StrStrip, Param(req.pathParameters, "device_id").GetOr(""))
      && r.deviceId != []
      && r.plan.pk == PartitionKey(r.deviceId)
      && (limit.None? ==> r.plan.limit == DefaultLimit)
      && (limit.Some? ==> Some(r.plan.limit) == ParseInt(limit.value))
      && r.plan.limit >= 1
      && (Truthy(fromTs) && Truthy(toTs) ==>
            r.plan.condition == Between(TsPrefix + fromTs.value, TsPrefix + toTs.value))
      && (Truthy(fromTs) && !Truthy(toTs) ==> r.plan.condition == AtLeast(TsPrefix + fromTs.value))
      && (!Truthy(fromTs) && Truthy(toTs) ==> r.plan.condition == AtMost(TsPrefix + toTs.value))
      && (!Truthy(fromTs) && !Truthy(toTs) ==> r.plan.condition == WholePartition)
  {
    var deviceId := Strip(StrStrip, Param(req.pathParameters, "device_id").GetOr(""));
    var limitParam := Param(req.queryStringParameters, "limit");
    var limit := if limitParam.None? then Some(DefaultLimit) else ParseInt(limitParam.value);
    if deviceId == [] then NoDevice
    else if limit.None? then Refused(LimitNotInteger)
    else if limit.value < 1 then Refused(LimitBelowOne)
    else
      var fromTs := Param(req.queryStringParameters, "from_ts");
      var toTs := Param(req.queryStringParameters, "to_ts");
      Issue(deviceId, QueryPlan(PartitionKey(deviceId), SelectCondition(fromTs, toTs), limit.value))
  }

  /** So a request whose `limit` starts with an information separator issues
      no query: the separator would be stripped from a device id, but `int()`
      refuses it. */
  lemma SeparatorLimitRefused(deviceId: string)
    requires Strip(StrStrip, deviceId) != []
    ensures PlanRequest(ReadRequest(Some(map["device_id" := deviceId]), Some(map["limit" := "\U{001C}5"])))
      == Refused(LimitNotInteger)
  {
    var req := ReadRequest(Some(map["device_id" := deviceId]), Some(map["limit" := "\U{001C}5"]));
    assert Param(req.pathParameters, "device_id") == Some(deviceId);
    assert Param(req.queryStringParameters, "limit") == Some("\U{001C}5");
    SeparatorNotSkipped();
  }

  /** Reads strip the path device id but ingestion stores the id as sent, so
      events of a device id with whitespace at either end are stored under a
      partition that no read request ever queries. */
  lemma PaddedDeviceIdUnreadable(req: ReadRequest, deviceId: string)
    requires |deviceId| > 0 && (IsSpace(deviceId[0]) || IsSpace(deviceId[|deviceId| - 1]))
    ensures PlanRequest(req).Issue? ==> PlanRequest(req).plan.pk != PartitionKey(deviceId)
  {
    if PlanRequest(req).Issue? {
      var d := PlanRequest(req).deviceId;
      assert PartitionKey(d)[|DevicePrefix|..] == d;
      assert PartitionKey(deviceId)[|DevicePrefix|..] == deviceId;
    }
  }

  /** The 200 answer to a query that returned the items at `r`. */
  function EventsResponse(deviceId: string, s: Store, r: seq<ItemKey>, limit: int, requestId: string): (resp: Response)
    requires forall i :: 0 <= i < |r| ==> r[i] in s
    ensures resp.status == 200
    ensures resp.headers.Keys == {ContentType, RequestIdHeader}
    ensures resp.headers[RequestIdHeader] == requestId
    ensures resp.body.Keys == {"device_id", "count", "events", "last_evaluated_key"}
      + (if requestId != "" then {RequestIdField} else {})
    ensures resp.body["device_id"] == JStr(deviceId)
    ensures resp.body["count"] == JInt(|r|)
    ensures resp.body["events"] == EventsJson(s, r)
    ensures resp.body["last_evaluated_key"] == LastEvaluatedKey(r, limit)
  {
    var body := map[
      "device_id" := JStr(deviceId),
      "count" := JInt(|r|),
      "events" := EventsJson(s, r),
      "last_evaluated_key" := LastEvaluatedKey(r, limit)];
    var resp := Respond(200, JObj(body), Some(requestId));
    assert resp.body.Keys == body.Keys + (if requestId != "" then {RequestIdField} else {});
    resp
  }

  /** The handler's part once it has a query to issue: an escaped exception
      when the query gets no answer, 500 when the table refuses the query or
      its condition, else 200 with at most `limit` matching items of the
      partition, largest sort key first, each omitted matching item sorting
      below all returned ones. The 200 body names the device id, the items as
      read and their number, and where the read stopped. */
  method ReadPlanned(deviceId: string, plan: QueryPlan, env: ReadEnv, s: Store) returns (o: ReadOutcome)
    requires plan.limit >= 1
    ensures o.ReadRaised? <==> env.queryFault == Some(TransportFault)
    ensures o.ReadRaised? ==> o.error == QueryUnreachable
    ensures o.Read? ==>
      && o.issued == Some(plan)
      && RequestIdHeader in o.response.headers
      && o.response.headers[RequestIdHeader] == env.requestId
      && (o.response.status == 200 <==> env.queryFault.None? && !RejectedCondition(plan.condition))
      && (o.response.status != 200 ==> o.response.status == 500 && o.returned == [])
      && |o.returned| <= plan.limit
      && (forall i :: 0 <= i < |o.returned| ==>
            o.returned[i] in s && o.returned[i].pk == plan.pk && Matches(plan.condition, o.returned[i].sk))
      && (forall i, j :: 0 <= i < j < |o.returned| ==> Less(o.returned[j].sk, o.returned[i].sk))
    ensures o.Read? && o.response.status == 200 ==>
      && (forall k :: k in s && k.pk == plan.pk && Matches(plan.condition, k.sk) && k !in o.returned ==>
            |o.returned| == plan.limit && forall i :: 0 <= i < |o.returned| ==> Less(k.sk, o.returned[i].sk))
      && o.response.body.Keys == {"device_id", "count", "events", "last_evaluated_key"}
           + (if env.requestId != "" then {RequestIdField} else {})
      && o.response.body["device_id"] == JStr(deviceId)
      && o.response.body["count"] == JInt(|o.returned|)
      && o.response.body["events"] == EventsJson(s, o.returned)
      && o.response.body["last_evaluated_key"] == LastEvaluatedKey(o.returned, plan.limit)
      && (o.response.body["last_evaluated_key"] == JNull ==>
            forall k :: k in s && k.pk == plan.pk && Matches(plan.condition, k.sk) ==> k in o.returned)
      && (o.response.body["last_evaluated_key"] != JNull ==>
            && |o.returned| > 0
            && o.response.body["last_evaluated_key"] ==
                 JObj(map["PK" := JStr(o.returned[|o.returned| - 1].pk), "SK" := JStr(o.returned[|o.returned| - 1].sk)])
            && forall k :: k in s && k.pk == plan.pk && Matches(plan.condition, k.sk) && k !in o.returned ==>
                 Less(k.sk, o.returned[|o.returned| - 1].sk))
  {
    var rid := Some(env.requestId);
    if env.queryFault == Some(TransportFault) {
      o := ReadRaised(QueryUnreachable);
    } else if env.queryFault.Some? || RejectedCondition(plan.condition) {
      var body := JObj(map["error" := JStr("Failed to retrieve events")]);
      o := Read(Respond(500, body, rid), Some(plan), []);
    } else {
      var r := RunQuery(s, plan);
      LastEvaluatedKeyMeaning(s, plan, r);
      o := Read(EventsResponse(deviceId, s, r, plan.limit, env.requestId), Some(plan), r);
    }
  }

  /** The handler. 400 without a query for a blank device id, an escaped
      exception for a `limit` it cannot use, and otherwise the planned query
      as `ReadPlanned` answers it, for the stripped device id. */
  method GetDeviceEvents(req: ReadRequest, env: ReadEnv, s: Store) returns (o: ReadOutcome)
    ensures PlanRequest(req).NoDevice? <==> o.Read? && o.issued.None?
    ensures PlanRequest(req).NoDevice? ==> o.response.status == 400 && o.returned == []
    ensures PlanRequest(req).Refused? ==> o == ReadRaised(PlanRequest(req).error)
    ensures PlanRequest(req).Issue? ==>
      && (o.ReadRaised? <==> env.queryFault == Some(TransportFault))
      && (o.ReadRaised? ==> o.error == QueryUnreachable)
      && (o.Read? ==> o.issued == Some(PlanRequest(req).plan))
    ensures o.Read? && o.issued.Some? ==>
      var plan := o.issued.value;
      && (o.response.status == 200 <==> env.queryFault.None? && !RejectedCondition(plan.condition))
      && (o.response.status != 200 ==> o.response.status == 500 && o.returned == [])
      && |o.returned| <= plan.limit
      && (forall i :: 0 <= i < |o.returned| ==>
            o.returned[i] in s && o.returned[i].pk == plan.pk && Matches(plan.condition, o.returned[i].sk))
      && (forall i, j :: 0 <= i < j < |o.returned| ==> Less(o.returned[j].sk, o.returned[i].sk))
    ensures o.Read? && o.issued.Some? && o.response.status == 200 ==>
      var plan := o.issued.value;
      && (forall k :: k in s && k.pk == plan.pk && Matches(plan.condition, k.sk) && k !in o.returned ==>
            |o.returned| == plan.limit && forall i :: 0 <= i < |o.returned| ==> Less(k.sk, o.returned[i].sk))
      && PlanRequest(req).Issue?
      && o.response.body.Keys == {"device_id", "count", "events", "last_evaluated_key"}
           + (if env.requestId != "" then {RequestIdField} else {})
      && o.response.body["device_id"] == JStr(PlanRequest(req).deviceId)
      && o.response.body["count"] == JInt(|o.returned|)
      && o.response.body["events"] == EventsJson(s, o.returned)
      && o.response.body["last_evaluated_key"] == LastEvaluatedKey(o.returned, plan.limit)
      && (o.response.body["last_evaluated_key"] == JNull ==>
            forall k :: k in s && k.pk == plan.pk && Matches(plan.condition, k.sk) ==> k in o.returned)
      && (o.response.body["last_evaluated_key"] != JNull ==>
            && |o.returned| > 0
            && o.response.body["last_evaluated_key"] ==
                 JObj(map["PK" := JStr(o.returned[|o.returned| - 1].pk), "SK" := JStr(o.returned[|o.returned| - 1].sk)])
            && forall k :: k in s && k.pk == plan.pk && Matches(plan.condition, k.sk) && k !in o.returned ==>
                 Less(k.sk, o.returned[|o.returned| - 1].sk))
    ensures o.Read? ==> RequestIdHeader in o.response.headers
    ensures o.Read? ==> o.response.headers[RequestIdHeader] == env.requestId
  {
    match PlanRequest(req)
    case NoDevice =>
      var body := JObj(map["error" := JStr("device_id path parameter is required")]);
      o := Read(Respond(400, body, Some(env.requestId)), None, []);
    case Refused(e) =>
      o := ReadRaised(e);
    case Issue(deviceId, plan) =>
      o := ReadPlanned(deviceId, plan, env, s);
  }
}

=== FILE: service.dfy ===
/** What a request to a cloud service (the table or the queue) may run into.
    The client library reports the two kinds through different exception
    classes, and the handler catches only the first. */
module Service {

  datatype Fault =
    | ClientFault(message: string)   // the service answered with an error: `ClientError`
    | TransportFault                 // no answer: connection or timeout, a `BotoCoreError`
}

=== FILE: table.dfy ===
/** The events table: items addressed by (partition key, sort key). */
module Table {
  import opened Wrappers
  import opened Json
  import opened Payload
  import Decimal

  datatype ItemKey = ItemKey(pk: string, sk: string)

  /** One stored event. `raw` is stored only when the request carried a
      non-empty object. */
  datatype Item = Item(
    pk: string,
    sk: string,
    deviceId: string,
    eventType: string,
    value: Reading,
    ts: int,
    ingestedAt: int,
    requestId: string,
    raw: Option<map<string, Json>>)

  type Store = map<ItemKey, Item>

  /** Every item is filed under its own key attributes. */
  predicate KeysConsistent(s: Store) {
    forall k :: k in s ==> s[k].pk == k.pk && s[k].sk == k.sk
  }

  /** Integers the client library can send: it converts them to the table's
      number type, which holds 38 significant digits, and refuses any
      conversion that would round. */
  const NumberLimit: int := Decimal.Pow10(38)

  /** Whether the client library can serialize a decoded JSON value as an
      attribute. A Python `float` is refused outright; integers must fit in
      38 digits. */
  predicate Storable(j: Json) {
    match j
    case JInt(n) => -NumberLimit < n < NumberLimit
    case JNum(_) => false
    case JArr(items) => forall i :: 0 <= i < |items| ==> Storable(items[i])
    case JObj(fields) => forall k :: k in fields ==> Storable(fields[k])
    case _ => true
  }

  /** Whether an item can be serialized for a write. Its `value` and
      `ingested_at` are sent as `Decimal`s built from text and are taken to
      fit. */
  predicate ItemStorable(it: Item) {
    && -NumberLimit < it.ts < NumberLimit
    && (it.raw.Some? ==> Storable(JObj(it.raw.value)))
  }

  /** A stored attribute as a read returns it and `json.dumps(..., default=str)`
      renders it: the table gives numbers back as `Decimal`, which has no JSON
      form and so is rendered as its text. Floats never reach the table. */
  function StoredJson(j: Json): (r: Json)
    ensures j.JObj? <==> r.JObj?
    ensures j.JObj? ==> r.fields.Keys == j.fields.Keys
    ensures j.JArr? <==> r.JArr?
    ensures j.JArr? ==> |r.items| == |j.items|
    ensures j.JInt? ==> r == JStr(Decimal.IntText(j.i))
    ensures j.JNull? || j.JBool? || j.JStr? ==> r == j
    ensures NoIntegers(r)
  {
    match j
    case JInt(n) => JStr(Decimal.IntText(n))
    case JArr(items) => JArr(seq(|items|, i requires 0 <= i < |items| => StoredJson(items[i])))
    case JObj(fields) => JObj(map k | k in fields :: StoredJson(fields[k]))
    case _ => j
  }

  /** No JSON integer anywhere in the value. */
  predicate NoIntegers(j: Json) {
    match j
    case JInt(_) => false
    case JArr(items) => forall i :: 0 <= i < |items| ==> NoIntegers(items[i])
    case JObj(fields) => forall k :: k in fields ==> NoIntegers(fields[k])
    case _ => true
  }

  /** An item as a read returns it, after the handler turns `value` back into
      a float and `ts` and `ingested_at` back into integers. The other
      attributes come back as stored, numbers inside `raw` as their text. */
  function ItemJson(it: Item): (r: Json)
    ensures r.JObj?
    ensures r.fields.Keys ==
      {"PK", "SK", "device_id", "type", "value", "ts", "ingested_at", "request_id"}
      + (if it.raw.Some? then {"raw"} else {})
    ensures r.fields["PK"] == JStr(it.pk) && r.fields["SK"] == JStr(it.sk)
    ensures r.fields["device_id"] == JStr(it.deviceId) && r.fields["type"] == JStr(it.eventType)
    ensures r.fields["value"] == JNum(it.value) && r.fields["ts"] == JInt(it.ts)
    ensures r.fields["ingested_at"] == JInt(it.ingestedAt)
    ensures r.fields["request_id"] == JStr(it.requestId)
    ensures it.raw.Some? ==> r.fields["raw"] == StoredJson(JObj(it.raw.value))
  {
    var base := map[
      "PK" := JStr(it.pk), "SK" := JStr(it.sk),
      "device_id" := JStr(it.deviceId), "type" := JStr(it.eventType),
      "value" := JNum(it.value), "ts" := JInt(it.ts),
      "ingested_at" := JInt(it.ingestedAt), "request_id" := JStr(it.requestId)];
    JObj(if it.raw.Some? then base["raw" := StoredJson(JObj(it.raw.value))] else base)
  }
}

=== FILE: text.dfy ===
/** Python's notion of whitespace, `str.strip()` with no arguments, and the
    whitespace `int()` skips around the digits it reads. */
module Text {

  /** `str.isspace()` for one character: the ASCII separators and the Unicode
      space characters Python treats as whitespace. */
  predicate IsSpace(c: char) {
    || c == ' ' || c == '\t' || c == '\n' || c == '\r'
    || c == '\U{000B}' || c == '\U{000C}'
    || ('\U{001C}' <= c <= '\U{001F}')
    || c == '\U{0085}' || c == '\U{00A0}' || c == '\U{1680}'
    || ('\U{2000}' <= c <= '\U{200A}')
    || c == '\U{2028}' || c == '\U{2029}' || c == '\U{202F}'
    || c == '\U{205F}' || c == '\U{3000}'
  }

  /** The ASCII information separators U+001C..U+001F. */
  predicate IsSeparator(c: char) {
    '\U{001C}' <= c <= '\U{001F}'
  }

  /** Whose whitespace is removed: `str.strip()` removes every `str.isspace()`
      character. `int()` passes ASCII characters through to its C parser,
      which skips only the C whitespace, so it keeps the four information
      separators and then fails on them; the other whitespace it skips. */
  datatype Stripper = StrStrip | IntParse

  predicate Skips(w: Stripper, c: char) {
    IsSpace(c) && !(w == IntParse && IsSeparator(c))
  }

  /** Every character of `s` is skipped by `w` (true of the empty string). */
  predicate AllSkipped(w: Stripper, s: string) {
    forall k :: 0 <= k < |s| ==> Skips(w, s[k])
  }

  /** `s` with its leading whitespace removed. */
  function TrimStart(w: Stripper, s: string): (r: string)
    ensures |r| <= |s| && r == s[|s| - |r|..]
    ensures AllSkipped(w, s[..|s| - |r|])
    ensures |r| > 0 ==> !Skips(w, r[0])
  {
    if |s| > 0 && Skips(w, s[0]) then TrimStart(w, s[1..]) else s
  }

  /** `s` with its trailing whitespace removed. */
  function TrimEnd(w: Stripper, s: string): (r: string)
    ensures |r| <= |s| && r == s[..|r|]
    ensures AllSkipped(w, s[|r|..])
    ensures |r| > 0 ==> !Skips(w, r[|r| - 1])
  {
    if |s| > 0 && Skips(w, s[|s| - 1]) then TrimEnd(w, s[..|s| - 1]) else s
  }

  /** The infix of `s` left after removing whitespace at both ends:
      `s.strip()` for `StrStrip`, what `int()` parses for `IntParse`. It is
      empty exactly when `s` is all whitespace, which for `str.strip()` is
      what the `not_empty` validator tests. */
  function Strip(w: Stripper, s: string): (r: string)
    ensures |r| <= |s|
    ensures exists i ::
      && 0 <= i <= |s| - |r|
      && r == s[i..i + |r|]
      && AllSkipped(w, s[..i])
      && AllSkipped(w, s[i + |r|..])
    ensures r == [] <==> AllSkipped(w, s)
    ensures |r| > 0 ==> !Skips(w, r[0]) && !Skips(w, r[|r| - 1])
  {
    var t := TrimStart(w, s);
    StripParts(w, s, |s| - |t|, t, TrimEnd(w, t));
    TrimEnd(w, t)
  }

  /** `r`, the part of `t` before its trailing whitespace, where `t` is the
      part of `s` from `i` on after its leading whitespace `s[..i]`, is an
      infix of `s` with only whitespace around it. */
  lemma StripParts(w: Stripper, s: string, i: nat, t: string, r: string)
    requires i <= |s| && t == s[i..] && AllSkipped(w, s[..i])
    requires |t| > 0 ==> !Skips(w, t[0])
    requires |r| <= |t| && r == t[..|r|] && AllSkipped(w, t[|r|..])
    requires |r| > 0 ==> !Skips(w, r[|r| - 1])
    ensures |r| <= |s|
    ensures exists i ::
      && 0 <= i <= |s| - |r|
      && r == s[i..i + |r|]
      && AllSkipped(w, s[..i])
      && AllSkipped(w, s[i + |r|..])
    ensures r == [] <==> AllSkipped(w, s)
    ensures |r| > 0 ==> !Skips(w, r[0]) && !Skips(w, r[|r| - 1])
  {
    assert s[i + |r|..] == t[|r|..];
    assert r == s[i..i + |r|];
    if r == [] {
      assert t[|r|..] == t;
      assert s == s[..i] + t;
    } else {
      assert r[0] == t[0] == s[i];
    }
  }

  /** Stripping twice is stripping once. */
  lemma StripIdempotent(w: Stripper, s: string)
    ensures Strip(w, Strip(w, s)) == Strip(w, s)
  {
    var r := Strip(w, s);
    assert TrimStart(w, r) == r;
    assert TrimEnd(w, r) == r;
  }
}

=== FILE: wrappers.dfy ===
/** Failure-carrying values shared by the model: an optional value and a
    success/error result. */
module Wrappers {

  datatype Option<+T> = None | Some(value: T) {

    /** The value, or `default` when absent. */
    function GetOr(default: T): T {
      match this
      case Some(v) => v
      case None => default
    }
  }

  datatype Result<+R, +E> = Ok(value: R) | Err(error: E)
}
